=== FILE: README.md ===
# runtime_check: annotation-driven validation, modelled in Dafny

`runtime_check` is a small Python library of decorators that check a function's
annotated arguments and return value at call time. This project models its
validation engine:

- **Type predicate evaluator** (`runtime_check/check_type.py`): `CheckType.Matches`
  decides whether a value conforms to a type specification (`Any`, `Union`, a
  constrained `TypeVar`, `List`/`Set`/`Dict`/`Tuple`, `Callable`, `Mapping`,
  `Iterator`, the None type, or a plain class). It follows the source's
  precedence order. Container elements are inspected only when the
  process-wide `DEEP` flag is set. Here that flag is the explicit `deep`
  parameter.
- **Bounds predicate evaluator** (`runtime_check/check_bounds.py`):
  `CheckBounds.InBounds` is `_in_bounds` on one bound tuple. It yields a type
  error, a specification error, or a decision. `CheckBounds.Validate` is the
  check function of `BoundChecker[...]`, which takes the OR over a list of
  intervals. A bound specification is kept as the Python value it is (a tuple
  or a list), so every malformed shape has a defined outcome. `Interval`,
  `Parse` and `BoundKey` give the reference reading of a well-formed tuple as
  an interval of the extended reals.
- **Call interceptor** (`runtime_check/wrappers.py`): `Wrappers.Intercept` is
  `_checking_annotations`. It pre-checks the supplied arguments in binding
  order, runs the body, post-checks the result when the return is annotated,
  and returns the result unchanged. A ghost counter `bodyRuns` records whether
  the body ran. `CheckTypeAtRun`, `CheckBoundAtRun` and `EnforceAnnotations`
  plug in the three decorators' checks.

Modules: `Values` (values, extended reals, errors), `CheckType`, `CheckBounds`,
`Wrappers`, and `Scenarios` (concrete cases from `test.py`).

Behaviour of the code worth noting:

- `positive` is `(0, np.inf)` (`runtime_check/check_bounds.py:89`), a closed
  pair, so both 0 and `inf` are accepted. The comment `# [0, +inf[` at
  `test.py:280` describes a half-open range instead. `negative` is likewise
  `(-np.inf, 0)` (`runtime_check/check_bounds.py:96`) and accepts `-inf`.
- Only the arguments the caller supplied are checked. The wrapper iterates
  over `sig.bind(*args, **kwargs).arguments` without `apply_defaults`
  (`runtime_check/wrappers.py:29-32`), so parameters left at their defaults
  are never checked.
- A tuple spec with declared element types checks the arity even when deep
  checking is off (`runtime_check/check_type.py:51`).
- `Mapping` admits only the objects returned by the builtin `map`, not dicts
  (`runtime_check/check_type.py:59`); `test.py:380` relies on that.

## Model

| member | source | states |
|---|---|---|
| CheckType.IsInstance | runtime_check/check_type.py:66-68 | the `isinstance` fallback for plain classes, with `bool` a subclass of `int`; a helper without a contract, whose meaning is stated through `Matches` by `ScalarMembers`, `NdArrayMembers` and `IterableMembers` |
| CheckType.Matches | runtime_check/check_type.py:17-71 | `_check_type`: the first applicable case decides, in source order; it has no contract of its own, and its meaning is stated by `UnionMatchesIffSomeMember`, the `Deep*` lemmas, `ShallowContainersIgnoreElements`, `TupleArityAlwaysChecked`, `NoneMatchesIffAdmitted` and `DeepImpliesShallow` |
| CheckType.AnyMatch | runtime_check/check_type.py:27-30 | the `any` over member specs is true exactly when some member spec matches the value |
| CheckType.AllMatch | runtime_check/check_type.py:31-42 | the deep list/set check is true exactly when every element matches the element spec |
| CheckType.AllEntriesMatch | runtime_check/check_type.py:43-47 | the deep dict check is true exactly when every key matches the key spec and every value the value spec |
| CheckType.ZipMatch | runtime_check/check_type.py:52-53 | the positional tuple check is true exactly when each position (up to the shorter length) matches its spec |
| CheckType.AnyMatchesEverything | runtime_check/check_type.py:25-26 | `Any` matches every value, None included |
| CheckType.UnionMatchesIffSomeMember | runtime_check/check_type.py:27-30 | a Union, and a TypeVar with the same constraints, match exactly when one member matches |
| CheckType.ShallowContainersIgnoreElements | runtime_check/check_type.py:31-49 | without deep checking, `List[T]`, `Set[T]` and `Dict[K,V]` accept every list, set or dict whatever its contents |
| CheckType.TupleArityAlwaysChecked | runtime_check/check_type.py:50-55 | a tuple spec with declared types refuses every tuple of another length, deep or not; shallowly, arity is all it checks |
| CheckType.DeepTupleIffEveryPosition | runtime_check/check_type.py:50-55 | deeply, `Tuple[A,B,C]` accepts exactly the 3-tuples whose every position matches its spec |
| CheckType.DeepListAndSetIffEveryElement | runtime_check/check_type.py:31-42 | deeply, `List[T]`/`Set[T]` accept exactly the lists/sets whose every element matches `T` |
| CheckType.DeepDictIffEveryEntry | runtime_check/check_type.py:43-49 | deeply, `Dict[K,V]` accepts exactly the dicts whose every key matches K and value matches V; the empty dict always passes |
| CheckType.NoneTypeAdmitsOnlyNone | runtime_check/check_type.py:62-63 | the None type admits None and nothing else |
| CheckType.NoneMatchesIffAdmitted | runtime_check/check_type.py:25-65 | None passes exactly the specs that are Any, the None type, or a union/TypeVar with such a member; containers and plain classes refuse it |
| CheckType.DeepImpliesShallow | runtime_check/check_type.py:31-55 | deep checking only adds conditions: every value accepted deeply is accepted shallowly |
| CheckType.Check | runtime_check/check_type.py:81-88 | the checker returns exactly when `_check_type` is true and otherwise raises a TypeError |
| CheckType.Subscript | runtime_check/check_type.py:91-95 | a single key is checked as itself; a collection of keys becomes a spec equivalent to their union; an empty collection is refused |
| CheckType.SubscriptCheckFailsIffNoKeyMatches | runtime_check/check_type.py:91-95 | a checker built from several keys raises exactly when no key admits the value |
| CheckType.ScalarMembers | runtime_check/check_type.py:110-115 | `scalar` admits exactly ints (bools included) and floats, whatever `deep` is |
| CheckType.NdArrayMembers | runtime_check/check_type.py:117-122 | `numpy_array` admits exactly numpy arrays |
| CheckType.IterableMembers | runtime_check/check_type.py:124-129 | `iterable` admits exactly strings, lists, sets, dicts, tuples, iterators and arrays |
| CheckType.IsScalar | runtime_check/check_bounds.py:27 | the `TypeChecker.scalar` call the bound checker makes returns exactly for numbers |
| CheckType.IsBool | runtime_check/check_bounds.py:35-36 | the `TypeChecker[bool]` call on an inclusivity flag returns exactly for booleans |
| CheckBounds.InBounds | runtime_check/check_bounds.py:18-41 | a non-number is a type error before the tuple is looked at; a malformed tuple is a specification error; a well-formed one decides membership in the interval it denotes |
| CheckBounds.DecidedOnlyForIntervals | runtime_check/check_bounds.py:28-41 | a decision is reached exactly for a number and a well-formed tuple, and a malformed tuple never yields a plain false |
| CheckBounds.BoundKeyRoundTrip | runtime_check/check_bounds.py:32-38 | reading back the 3-tuple spelling of an interval gives the interval, and `_in_bounds` then decides exactly membership in it |
| CheckBounds.PairIsClosed | runtime_check/check_bounds.py:28-31 | a pair `(lo, hi)` is `lo <= v <= hi`, so both ends are accepted |
| CheckBounds.FlagsChooseEachSide | runtime_check/check_bounds.py:32-38 | with flags, each side independently uses `<=` when its flag is true and `<` otherwise |
| CheckBounds.AnyInBounds | runtime_check/check_bounds.py:58-59 | the OR over intervals decides only when every interval decides; it is then true exactly when one holds the value; otherwise the first error in order is raised |
| CheckBounds.Evaluate | runtime_check/check_bounds.py:58-61 | a list, or a tuple of tuples, is the OR over its intervals: it decides exactly when every interval decides, is then true exactly when one holds the value, and otherwise yields the first error in order; anything else is a single bound tuple |
| CheckBounds.ToOutcome | runtime_check/check_bounds.py:62-63 | the check passes exactly on an in-bounds decision; an out-of-bounds decision, and only that, raises the bounds error; the checker's type error and specification error, and only those, surface as themselves |
| CheckBounds.Validate | runtime_check/check_bounds.py:52-63 | `BoundChecker[key](v)` returns exactly when the value is in bounds, raises the bounds error exactly when it is out of every interval, and raises the type or specification error exactly when `_in_bounds` does |
| CheckBounds.NonNumberIsTypeError | runtime_check/check_bounds.py:58-63 | a value that is not a number raises the type error of the `scalar` call inside `_in_bounds` (line 27), never the bounds error, for every key except an empty union, where `any([])` is false and the bounds error is raised |
| CheckBounds.ValidateIsOrOverIntervals | runtime_check/check_bounds.py:58-63 | over well-formed intervals, a number passes exactly when some interval contains it, and otherwise raises the bounds error |
| CheckBounds.ValidateSingleInterval | runtime_check/check_bounds.py:60-63 | a single bound tuple refuses non-numbers with a type error, passes numbers inside its interval and raises the bounds error for the rest |
| CheckBounds.ShorthandIntervals | runtime_check/check_bounds.py:84-117 | the intervals of `positive` [0, inf], `negative` [-inf, 0], `positive_not_zero` (0, inf], `negative_not_zero` [-inf, 0) and `probability` [0, 1] |
| CheckBounds.ShorthandsAccept | runtime_check/check_bounds.py:84-117 | for every number, which shorthands accept it; the not-zero variants refuse 0 and `positive` accepts `inf` |
| Wrappers.ArgPasses | runtime_check/wrappers.py:30-32 | `if name in ann: pre_check(...)` for one supplied argument: an unannotated argument passes, an annotated one passes exactly when its check returns; a predicate whose use is stated by `Intercept` |
| Wrappers.Intercept | runtime_check/wrappers.py:13-39 | the body runs once if every annotated supplied argument passes, and not at all otherwise; the first failing argument's error is raised; the return check runs only if the return is annotated, after the body; success returns the body's value unchanged |
| Wrappers.TypeAnnotationCheck | runtime_check/wrappers.py:140-146 | the type decorator's check raises a TypeError naming the site exactly when `_check_type` is false |
| Wrappers.CheckTypeAtRun | runtime_check/wrappers.py:117-148 | a call succeeds exactly when every supplied annotated argument and the annotated return match; the first mismatching argument is named and the body does not run; a mismatching return raises the TypeError naming the return |
| Wrappers.BoundAnnotationVerdict | runtime_check/wrappers.py:98-102 | a list annotation is the OR over its intervals: it decides exactly when every interval decides, is then true exactly when one holds the value, and otherwise yields the first error in order; any other annotation is one bound tuple |
| Wrappers.BoundAnnotationCheck | runtime_check/wrappers.py:98-112 | the bound decorator's check passes on an in-bounds decision, raises the bounds error naming the site exactly on an out-of-bounds one, and passes the type and specification errors of `_in_bounds` through unchanged |
| Wrappers.BoundAnnotationIsOrOverIntervals | runtime_check/wrappers.py:98-104 | under `check_bound_at_run`, a list of well-formed bound tuples passes a number exactly when one of their intervals contains it, and otherwise raises the bounds error naming the site |
| Wrappers.BoundNonNumberIsTypeError | runtime_check/wrappers.py:98-112 | under `check_bound_at_run`, a value that is not a number raises the type error at every site, except under an empty list of intervals, where it raises the bounds error |
| Wrappers.CheckBoundAtRun | runtime_check/wrappers.py:73-114 | a call succeeds exactly when every supplied annotated argument and the annotated return are in bounds; the first failing argument raises its check's error (the bounds error naming it when out of bounds) before the body runs; a failing return raises the return check's error, including the type and specification errors of `_in_bounds` |
| Wrappers.RunGuard | runtime_check/wrappers.py:56-61 | applying one predicate object: a type checker passes exactly on a match and otherwise raises the TypeError; a bound checker behaves exactly as `BoundChecker[key](v)` |
| Wrappers.RunGuards | runtime_check/wrappers.py:57-59 | an iterable of predicates passes exactly when all pass (AND); otherwise the first failing one's error is raised |
| Wrappers.GuardAnnotationCheck | runtime_check/wrappers.py:56-68 | a single predicate is applied directly; an iterable of them passes exactly when every predicate passes, and otherwise raises the error of the first failing predicate in order |
| Wrappers.EnforceAnnotations | runtime_check/wrappers.py:43-70 | a call succeeds exactly when every predicate on every supplied argument and on the annotated return passes; the first failing argument raises its predicate's error before the body runs; a failing return raises the return predicate's error |
| Scenarios.TupleCases | test.py:101-114 | `Tuple[int, float, str]` accepts `(0, 0.0, "")` and refuses `(0, 0, "")` and `(0, 0.0, None)` deeply, and refuses `(1,)` and 4-tuples even shallowly |
| Scenarios.DictCases | test.py:116-129 | `Optional[Dict[str, int]]` accepts `{}`, `{"str": 0}` and None and refuses wrongly typed keys or values |
| Scenarios.DisjointAcceptsUnion | test.py:147-167 | the annotation `[(-inf, -1), (0, 1), (2, inf)]` passes a number exactly when it lies in one of the three closed intervals |
| Scenarios.DisjointAccepts | test.py:164-167 | the same annotation passes -1000, -1, 0.0, 1.0 and 20000 |
| Scenarios.DisjointRefuses | test.py:153-163 | the same annotation refuses -0.5 and 1.5 with the bounds error naming the argument |
| Scenarios.DisjointRefusesString | test.py:153-163 | a string is refused with the checker's type error, not a bounds error |
| Scenarios.TupleOfTuplesCases | test.py:241-258 | `BoundChecker[(0, 1), (2, 4)]` refuses 1.5 and accepts 2 |
| Scenarios.HalfOpenCases | test.py:260-277 | `BoundChecker[(0, 100, (True, False))]` accepts 0 and refuses 100 |
| Scenarios.MalformedCase | test.py:368-371 | `BoundChecker[(0, 1, 0)]` raises the specification error |
| Scenarios.DecoratorTupleOfTuplesIsNotAUnion | runtime_check/wrappers.py:98-102 | the decorator reads only a list as a union: a tuple of tuples that `BoundChecker` accepts as a union is a type error as a decorator annotation |
| Scenarios.DualCases | test.py:299-318 | `[BoundChecker[(0, 1)], TypeChecker[int, float]]` passes 0.5, refuses 1.001 with the bounds error and a string with the type error |
| Scenarios.UnionDecoratorCalls | test.py:14-34 | a `Union[int, float]` argument: 10 returns the body's 110; the empty string is refused naming the argument and the body never runs |
| Scenarios.ReturnBoundCalls | test.py:192-212 | with `-> (0, 1)`, a returned 0.5 comes back unchanged, -10 raises the bounds error naming the return, and the empty string raises the type error |
| Scenarios.EnforcedStrCalls | test.py:320-337 | with `TypeChecker[str]` under `enforce_annotations`, "hello" passes and 0 raises the TypeError before the body runs |

## Left out

- Python reflection (`inspect.signature`, `sig.bind`, `__annotations__`, `functools.wraps`): the bound arguments are an explicit ordered list of (name, value) pairs. The annotations are a map from a parameter or the return to a spec.
- Packing of `*args`/`**kwargs`: such a parameter appears in the binding as the one tuple or dict value it is bound to.
- Exceptions and side effects of the wrapped body itself: the body is a pure function of the binding, so only whether it ran is recorded.
- Error message text and the `print` on the unreachable exception path of `_check_type`.
- `cls` in `_validater` and `__getitem__` of check_type.py is an undefined name (`mcs` is in scope). As written, `TypeChecker[...]` raises NameError at subscript time (`runtime_check/check_type.py:93` and `:95`), so an annotation such as `TypeChecker[int, float]` fails when the decorated function is defined, and `_in_bounds` fails at `TypeChecker[bool]` on a flagged bound tuple (`runtime_check/check_bounds.py:35`). `TypeChecker.scalar(v)` raises NameError when called, through its check function (`runtime_check/check_type.py:87`), so every `_in_bounds` call fails at `runtime_check/check_bounds.py:27`. Only bound checks that never reach `_in_bounds` (an empty list of intervals, a call with no annotated argument or return) would get through. The model follows the evident intent everywhere: the checker calls `_check_type(key, val)`.
- numpy: a numpy array is one opaque value category (`ArrayVal`) and its class one category (`NdArrayClass`); nothing else about it is modelled.
- Floating point: numbers are reals plus the two infinities. NaN and rounding are not modelled, and neither is the overflow of huge literals such as `1e10000` to `inf`.
- The full `isinstance` hierarchy: plain classes are int (bools included), float, str, bool, numpy array and Iterable. Builtin container classes used as annotations, `Tuple[T, ...]`, other `typing` constructs and user classes are not modelled. `Optional[T]` is written as a union with the None type.
- `callable` admits only plain function values (`FuncVal`); classes and objects with `__call__` are not distinguished.
- Union flattening and deduplication done by `typing`: a union keeps its members as given, with the same meaning.
- Hashability, and uniqueness of set members and dict keys: a set or dict is given by its members or items in iteration order.
- Predicates attached under `enforce_annotations` are the checkers this library builds (`Guard`). Arbitrary callables, and iterables that are not lists of predicates (a string, say), are not modelled.
- The mutability of `DEEP` and its unsynchronised reads: the flag is a parameter, fixed for one call.
- `__init__.py` (re-exports) and `setup.py` (packaging).

=== FILE: check_bounds.dfy ===
/** The bounds predicate evaluator: whether a number lies in an interval given
    as a bound tuple, or in at least one of several. */
module CheckBounds {
  import opened Values
  import CheckType

  /** What `_in_bounds` does with a value and one bound tuple: raise a
      TypeError, raise a ValueError for a malformed tuple, or decide. */
  datatype Verdict = TypeErr | SpecErr | Decided(inside: bool)

  /** An interval of the extended reals with its own inclusivity per side. */
  datatype Interval = Interval(lo: ExtReal, hi: ExtReal, closedLo: bool, closedHi: bool) {
    predicate Contains(x: ExtReal) {
      && (if closedLo then lo.Le(x) else lo.Lt(x))
      && (if closedHi then x.Le(hi) else x.Lt(hi))
    }
  }

  /** The two accepted shapes: `(lo, hi)` and `(lo, hi, (incLo, incHi))`. */
  predicate WellShaped(key: Value) {
    && key.TupleVal?
    && (|key.items| == 2 || (|key.items| == 3 && key.items[2].TupleVal? && |key.items[2].items| == 2))
  }

  /** The interval a bound tuple denotes, when it has an accepted shape,
      numeric ends and boolean flags. A pair is closed on both sides. */
  function Parse(key: Value): Option<Interval> {
    if !WellShaped(key) || !IsNumber(key.items[0]) || !IsNumber(key.items[1]) then None
    else if |key.items| == 2 then Some(Interval(Num(key.items[0]), Num(key.items[1]), true, true))
    else
      var flags := key.items[2].items;
      if flags[0].BoolVal? && flags[1].BoolVal?
      then Some(Interval(Num(key.items[0]), Num(key.items[1]), flags[0].b, flags[1].b))
      else None
  }

  /** The bound tuple that spells out an interval with float ends and flags. */
  function BoundKey(iv: Interval): Value {
    TupleVal([FloatVal(iv.lo), FloatVal(iv.hi), TupleVal([BoolVal(iv.closedLo), BoolVal(iv.closedHi)])])
  }

  /** `operator.le` when the side is inclusive, `operator.lt` otherwise. */
  predicate Compare(inclusive: bool, a: ExtReal, b: ExtReal) {
    if inclusive then a.Le(b) else a.Lt(b)
  }

  /** `_in_bounds(v, key)`. The value is checked to be a number first, then
      the tuple's shape, then its ends, then its flags. */
  function InBounds(v: Value, key: Value): (r: Verdict)
    ensures !IsNumber(v) ==> r == TypeErr
    ensures IsNumber(v) && !WellShaped(key) ==> r == SpecErr
    ensures IsNumber(v) && WellShaped(key) && Parse(key).None? ==> r == TypeErr
    ensures IsNumber(v) && Parse(key).Some? ==> r == Decided(Parse(key).value.Contains(Num(v)))
  {
    if !CheckType.IsScalar(v) then TypeErr
    else if key.TupleVal? && |key.items| == 2 then
      var lo, hi := key.items[0], key.items[1];
      if !CheckType.IsScalar(lo) || !CheckType.IsScalar(hi) then TypeErr
      else Decided(Num(lo).Le(Num(v)) && Num(v).Le(Num(hi)))
    else if key.TupleVal? && |key.items| == 3 && key.items[2].TupleVal? && |key.items[2].items| == 2 then
      var lo, hi, flags := key.items[0], key.items[1], key.items[2].items;
      if !CheckType.IsScalar(lo) || !CheckType.IsScalar(hi) then TypeErr
      else if !CheckType.IsBool(flags[0]) || !CheckType.IsBool(flags[1]) then TypeErr
      else Decided(Compare(flags[0].b, Num(lo), Num(v)) && Compare(flags[1].b, Num(v), Num(hi)))
    else SpecErr
  }

  /** A malformed bound tuple is a specification error, never a plain "no". */
  lemma DecidedOnlyForIntervals(v: Value, key: Value)
    ensures InBounds(v, key).Decided? <==> IsNumber(v) && Parse(key).Some?
    ensures InBounds(v, key) == SpecErr <==> IsNumber(v) && !WellShaped(key)
  {
  }

  /** Spelling an interval as a bound tuple and reading it back gives it again,
      and `_in_bounds` then decides exactly membership in it. */
  lemma BoundKeyRoundTrip(iv: Interval, v: Value)
    ensures Parse(BoundKey(iv)) == Some(iv)
    ensures IsNumber(v) ==> InBounds(v, BoundKey(iv)) == Decided(iv.Contains(Num(v)))
  {
  }

  /** A pair `(lo, hi)` is closed on both ends. */
  lemma PairIsClosed(v: Value, lo: Value, hi: Value)
    requires IsNumber(v) && IsNumber(lo) && IsNumber(hi)
    ensures InBounds(v, TupleVal([lo, hi])) == Decided(Num(lo).Le(Num(v)) && Num(v).Le(Num(hi)))
    ensures Num(lo).Le(Num(hi)) ==>
              InBounds(lo, TupleVal([lo, hi])) == Decided(true) && InBounds(hi, TupleVal([lo, hi])) == Decided(true)
  {
  }

  /** With flags each side is `<=` when its flag is true and `<` otherwise,
      independently of the other side. */
  lemma FlagsChooseEachSide(v: Value, lo: Value, hi: Value, incLo: bool, incHi: bool)
    requires IsNumber(v) && IsNumber(lo) && IsNumber(hi)
    ensures var r := InBounds(v, TupleVal([lo, hi, TupleVal([BoolVal(incLo), BoolVal(incHi)])]));
            && r.Decided?
            && (r.inside <==>
                  (if incLo then Num(lo).Le(Num(v)) else Num(lo).Lt(Num(v)))
                  && (if incHi then Num(v).Le(Num(hi)) else Num(v).Lt(Num(hi))))
  {
  }

  /** `any([_in_bounds(v, k) for k in keys])`: the list is built in full before
      `any` looks at it, so the first error in order is raised even when an
      earlier interval holds the value. */
  function AnyInBounds(v: Value, keys: seq<Value>): (r: Verdict)
    ensures r.Decided? <==> forall i :: 0 <= i < |keys| ==> InBounds(v, keys[i]).Decided?
    ensures r.Decided? ==> (r.inside <==> exists i :: 0 <= i < |keys| && InBounds(v, keys[i]) == Decided(true))
    ensures !r.Decided? ==>
              exists i :: 0 <= i < |keys| && InBounds(v, keys[i]) == r
                          && forall j :: 0 <= j < i ==> InBounds(v, keys[j]).Decided?
  {
    if |keys| == 0 then Decided(false)
    else
      var first := InBounds(v, keys[0]);
      if !first.Decided? then first
      else
        var rest := AnyInBounds(v, keys[1..]);
        if !rest.Decided? then rest else Decided(first.inside || rest.inside)
  }

  /** A list, or a tuple all of whose elements are tuples, is a union of intervals. */
  predicate IsIntervalList(key: Value) {
    key.ListVal? || (key.TupleVal? && forall i :: 0 <= i < |key.items| ==> key.items[i].TupleVal?)
  }

  /** The `valid` of a BoundChecker's check function. */
  function Evaluate(key: Value, v: Value): (r: Verdict)
    ensures !IsIntervalList(key) ==> r == InBounds(v, key)
    ensures IsIntervalList(key) ==>
              (r.Decided? <==> forall i :: 0 <= i < |key.items| ==> InBounds(v, key.items[i]).Decided?)
    ensures IsIntervalList(key) && r.Decided? ==>
              (r.inside <==> exists i :: 0 <= i < |key.items| && InBounds(v, key.items[i]) == Decided(true))
    ensures IsIntervalList(key) && !r.Decided? ==>
              exists i :: 0 <= i < |key.items| && InBounds(v, key.items[i]) == r
                          && forall j :: 0 <= j < i ==> InBounds(v, key.items[j]).Decided?
  {
    if IsIntervalList(key) then AnyInBounds(v, key.items) else InBounds(v, key)
  }

  /** How a verdict surfaces: the checker's own errors pass through, and a
      value outside every interval raises the bounds error at `site`. */
  function ToOutcome(verdict: Verdict, site: Site): (r: Outcome)
    ensures r.Pass? <==> verdict == Decided(true)
    ensures r == Fail(OutOfBounds(site)) <==> verdict == Decided(false)
    ensures verdict == SpecErr <==> r == Fail(BadSpec)
    ensures verdict == TypeErr <==> r == Fail(TypeMismatch(Unnamed))
  {
    match verdict
    case TypeErr => Fail(TypeMismatch(Unnamed))
    case SpecErr => Fail(BadSpec)
    case Decided(inside) => if inside then Pass else Fail(OutOfBounds(site))
  }

  /** `BoundChecker[key](v)`: returns when the value is in bounds, raises
      otherwise. */
  function Validate(key: Value, v: Value): (r: Outcome)
    ensures r.Pass? <==> Evaluate(key, v) == Decided(true)
    ensures r == Fail(OutOfBounds(Unnamed)) <==> Evaluate(key, v) == Decided(false)
    ensures r == Fail(TypeMismatch(Unnamed)) <==> Evaluate(key, v) == TypeErr
    ensures r == Fail(BadSpec) <==> Evaluate(key, v) == SpecErr
  {
    ToOutcome(Evaluate(key, v), Unnamed)
  }

  /** A value that is not a number raises the checker's type error, never the
      bounds error, whatever the key; only an empty union, which has no
      interval to call `_in_bounds` on, falls through to the bounds error. */
  lemma NonNumberIsTypeError(key: Value, v: Value)
    requires !IsNumber(v)
    ensures Validate(key, v) ==
              if IsIntervalList(key) && |key.items| == 0 then Fail(OutOfBounds(Unnamed))
              else Fail(TypeMismatch(Unnamed))
  {
    if IsIntervalList(key) && |key.items| > 0 {
      assert InBounds(v, key.items[0]) == TypeErr;
    }
  }

  /** A union of intervals whose members are all well formed accepts a number
      exactly when one interval contains it, and raises the bounds error otherwise. */
  lemma ValidateIsOrOverIntervals(key: Value, v: Value)
    requires IsIntervalList(key) && IsNumber(v)
    requires forall i :: 0 <= i < |key.items| ==> Parse(key.items[i]).Some?
    ensures Validate(key, v) == Pass <==>
              exists i :: 0 <= i < |key.items| && Parse(key.items[i]).value.Contains(Num(v))
    ensures Validate(key, v) != Pass ==> Validate(key, v) == Fail(OutOfBounds(Unnamed))
  {
    assert Evaluate(key, v) == AnyInBounds(v, key.items);
    forall i | 0 <= i < |key.items|
      ensures InBounds(v, key.items[i]) == Decided(Parse(key.items[i]).value.Contains(Num(v)))
    {
    }
    if exists i :: 0 <= i < |key.items| && Parse(key.items[i]).value.Contains(Num(v)) {
      var i :| 0 <= i < |key.items| && Parse(key.items[i]).value.Contains(Num(v));
      assert InBounds(v, key.items[i]) == Decided(true);
    }
  }

  /** A single bound tuple accepts exactly the numbers its interval contains. */
  lemma ValidateSingleInterval(key: Value, iv: Interval, v: Value)
    requires !IsIntervalList(key) && Parse(key) == Some(iv)
    ensures Validate(key, v) ==
              if !IsNumber(v) then Fail(TypeMismatch(Unnamed))
              else if iv.Contains(Num(v)) then Pass
              else Fail(OutOfBounds(Unnamed))
  {
  }

  /** `BoundChecker.positive`: `(0, inf)`. */
  const Positive: Value := TupleVal([IntVal(0), FloatVal(PosInf)])
  /** `BoundChecker.negative`: `(-inf, 0)`. */
  const Negative: Value := TupleVal([FloatVal(NegInf), IntVal(0)])
  /** `BoundChecker.positive_not_zero`: `(0, inf, (False, True))`. */
  const PositiveNotZero: Value := TupleVal([IntVal(0), FloatVal(PosInf), TupleVal([BoolVal(false), BoolVal(true)])])
  /** `BoundChecker.negative_not_zero`: `(-inf, 0, (True, False))`. */
  const NegativeNotZero: Value := TupleVal([FloatVal(NegInf), IntVal(0), TupleVal([BoolVal(true), BoolVal(false)])])
  /** `BoundChecker.probability`: `(0, 1)`. */
  const Probability: Value := TupleVal([IntVal(0), IntVal(1)])

  /** The intervals the named shorthands denote. Both infinities are
      reachable ends: `positive` accepts `inf` and `negative` accepts `-inf`. */
  lemma ShorthandIntervals()
    ensures Parse(Positive) == Some(Interval(Fin(0.0), PosInf, true, true))
    ensures Parse(Negative) == Some(Interval(NegInf, Fin(0.0), true, true))
    ensures Parse(PositiveNotZero) == Some(Interval(Fin(0.0), PosInf, false, true))
    ensures Parse(NegativeNotZero) == Some(Interval(NegInf, Fin(0.0), true, false))
    ensures Parse(Probability) == Some(Interval(Fin(0.0), Fin(1.0), true, true))
  {
  }

  /** What each shorthand accepts, for any number. */
  lemma ShorthandsAccept(v: Value)
    requires IsNumber(v)
    ensures Validate(Positive, v).Pass? <==> Fin(0.0).Le(Num(v))
    ensures Validate(Negative, v).Pass? <==> Num(v).Le(Fin(0.0))
    ensures Validate(PositiveNotZero, v).Pass? <==> Fin(0.0).Lt(Num(v))
    ensures Validate(NegativeNotZero, v).Pass? <==> Num(v).Lt(Fin(0.0))
    ensures Validate(Probability, v).Pass? <==> Fin(0.0).Le(Num(v)) && Num(v).Le(Fin(1.0))
    ensures Validate(PositiveNotZero, IntVal(0)) == Fail(OutOfBounds(Unnamed))
    ensures Validate(NegativeNotZero, IntVal(0)) == Fail(OutOfBounds(Unnamed))
    ensures Validate(Positive, FloatVal(PosInf)) == Pass
  {
    ShorthandIntervals();
    ValidateSingleInterval(Positive, Parse(Positive).value, v);
    ValidateSingleInterval(Negative, Parse(Negative).value, v);
    ValidateSingleInterval(PositiveNotZero, Parse(PositiveNotZero).value, v);
    ValidateSingleInterval(NegativeNotZero, Parse(NegativeNotZero).value, v);
    ValidateSingleInterval(Probability, Parse(Probability).value, v);
    ValidateSingleInterval(PositiveNotZero, Parse(PositiveNotZero).value, IntVal(0));
    ValidateSingleInterval(NegativeNotZero, Parse(NegativeNotZero).value, IntVal(0));
    ValidateSingleInterval(Positive, Parse(Positive).value, FloatVal(PosInf));
  }
}

=== FILE: check_type.dfy ===
/** The type predicate evaluator: which values a declared type specification
    admits, with container elements inspected only under deep checking. */
module CheckType {
  import opened Values

  /** The plain classes an annotation can name directly. */
  datatype Category = IntClass | FloatClass | StrClass | BoolClass | NdArrayClass | IterableClass

  /** A declared type specification. `None` arguments stand for the bare,
      unparameterised generic (`List`, `Set`, `Dict`); a dict's parameters
      are the key and value specifications. `BareTuple` is the bare `Tuple`
      and `TupleOf` a tuple spec with declared element types. */
  datatype TypeSpec =
    | AnyType
    | UnionOf(alts: seq<TypeSpec>)
    | TypeVarOf(constraints: seq<TypeSpec>)
    | ListOf(elem: Option<TypeSpec>)
    | SetOf(elem: Option<TypeSpec>)
    | DictOf(params: Option<(TypeSpec, TypeSpec)>)
    | BareTuple
    | TupleOf(elems: seq<TypeSpec>)
    | CallableType
    | MappingType
    | IteratorType
    | NoneType
    | Atomic(cls: Category)

  /** `isinstance(v, cls)` for the plain classes; `bool` is a subclass of `int`. */
  predicate IsInstance(cls: Category, v: Value) {
    match cls
    case IntClass => v.IntVal? || v.BoolVal?
    case FloatClass => v.FloatVal?
    case StrClass => v.StrVal?
    case BoolClass => v.BoolVal?
    case NdArrayClass => v.ArrayVal?
    case IterableClass =>
      v.StrVal? || v.ListVal? || v.SetVal? || v.DictVal? || v.TupleVal?
      || v.MapIterVal? || v.ListIterVal? || v.ArrayVal?
  }

  /** The evaluator. The first case that applies to `spec` decides, in the
      order Any, Union, TypeVar, List, Set, Dict, Tuple (bare or declared), Callable, Mapping,
      Iterator, None, then a None value is refused and every other spec is an
      instance check. Elements are inspected only when `deep` is set and the
      container spec carries parameters; a parameterised tuple spec checks
      arity whatever `deep` is. */
  function Matches(deep: bool, spec: TypeSpec, v: Value): bool
    decreases spec, 1
  {
    match spec
    case AnyType => true
    case UnionOf(alts) => AnyMatch(deep, alts, v)
    case TypeVarOf(constraints) => AnyMatch(deep, constraints, v)
    case ListOf(elem) =>
      var valid := v.ListVal?;
      if deep && valid && elem.Some? then AllMatch(deep, elem.value, v.items) else valid
    case SetOf(elem) =>
      var valid := v.SetVal?;
      if deep && valid && elem.Some? then AllMatch(deep, elem.value, v.items) else valid
    case DictOf(params) =>
      var valid := v.DictVal?;
      if deep && valid && params.Some? then AllEntriesMatch(deep, params.value, v.entries) else valid
    case BareTuple => v.TupleVal?
    case TupleOf(specs) =>
      var valid := v.TupleVal? && |specs| == |v.items|;
      if deep && valid then ZipMatch(deep, specs, v.items) else valid
    case CallableType => v.FuncVal?
    case MappingType => v.MapIterVal?
    case IteratorType => v.MapIterVal? || v.ListIterVal?
    case NoneType => v.NoneVal?
    case Atomic(cls) => if v.NoneVal? then false else IsInstance(cls, v)
  }

  /** `any(check(k, v) for k in alts)`. */
  function AnyMatch(deep: bool, alts: seq<TypeSpec>, v: Value): (r: bool)
    ensures r <==> exists i :: 0 <= i < |alts| && Matches(deep, alts[i], v)
    decreases alts, 2
  {
    if |alts| == 0 then false
    else Matches(deep, alts[0], v) || AnyMatch(deep, alts[1..], v)
  }

  /** `all(check(elem, x) for x in items)`. */
  function AllMatch(deep: bool, elem: TypeSpec, items: seq<Value>): (r: bool)
    ensures r <==> forall i :: 0 <= i < |items| ==> Matches(deep, elem, items[i])
    decreases elem, 2, |items|
  {
    if |items| == 0 then true
    else Matches(deep, elem, items[0]) && AllMatch(deep, elem, items[1..])
  }

  /** `all(check(K, k) and check(V, v) for (k, v) in entries)`. */
  function AllEntriesMatch(deep: bool, params: (TypeSpec, TypeSpec), entries: seq<Entry>): (r: bool)
    ensures r <==> forall i :: 0 <= i < |entries| ==>
                      Matches(deep, params.0, entries[i].key) && Matches(deep, params.1, entries[i].val)
    decreases params, 2, |entries|
  {
    if |entries| == 0 then true
    else
      Matches(deep, params.0, entries[0].key) && Matches(deep, params.1, entries[0].val)
      && AllEntriesMatch(deep, params, entries[1..])
  }

  /** `all(check(s, x) for s, x in zip(specs, items))`: stops at the shorter. */
  function ZipMatch(deep: bool, specs: seq<TypeSpec>, items: seq<Value>): (r: bool)
    ensures r <==> forall i :: 0 <= i < |specs| && i < |items| ==> Matches(deep, specs[i], items[i])
    decreases specs, 2
  {
    if |specs| == 0 || |items| == 0 then true
    else Matches(deep, specs[0], items[0]) && ZipMatch(deep, specs[1..], items[1..])
  }

  /** The specs that let None through: Any, the None type, and unions or type
      variables with such a member (`Optional[T]` is `Union[T, None]`). */
  predicate AdmitsNone(spec: TypeSpec) {
    match spec
    case AnyType => true
    case NoneType => true
    case UnionOf(alts) => exists i | 0 <= i < |alts| :: AdmitsNone(alts[i])
    case TypeVarOf(constraints) => exists i | 0 <= i < |constraints| :: AdmitsNone(constraints[i])
    case _ => false
  }

  /** `Any` matches every value, None included: its case comes before the
      None test. */
  lemma AnyMatchesEverything(deep: bool, v: Value)
    ensures Matches(deep, AnyType, v)
  {
  }

  lemma UnionMatchesIffSomeMember(deep: bool, alts: seq<TypeSpec>, v: Value)
    ensures Matches(deep, UnionOf(alts), v) <==> exists i :: 0 <= i < |alts| && Matches(deep, alts[i], v)
    ensures Matches(deep, TypeVarOf(alts), v) <==> exists i :: 0 <= i < |alts| && Matches(deep, alts[i], v)
  {
  }

  /** Without deep checking a parameterised list, set or dict spec only looks
      at the container's category. */
  lemma ShallowContainersIgnoreElements(elem: Option<TypeSpec>, params: Option<(TypeSpec, TypeSpec)>, v: Value)
    ensures Matches(false, ListOf(elem), v) <==> v.ListVal?
    ensures Matches(false, SetOf(elem), v) <==> v.SetVal?
    ensures Matches(false, DictOf(params), v) <==> v.DictVal?
  {
  }

  /** A parameterised tuple spec refuses a tuple of another length, deep or not. */
  lemma TupleArityAlwaysChecked(deep: bool, specs: seq<TypeSpec>, v: Value)
    ensures Matches(deep, TupleOf(specs), v) ==> v.TupleVal? && |v.items| == |specs|
    ensures !deep ==> (Matches(deep, TupleOf(specs), v) <==> v.TupleVal? && |v.items| == |specs|)
  {
  }

  lemma DeepTupleIffEveryPosition(specs: seq<TypeSpec>, v: Value)
    ensures Matches(true, TupleOf(specs), v) <==>
              v.TupleVal? && |v.items| == |specs|
              && forall i :: 0 <= i < |specs| ==> Matches(true, specs[i], v.items[i])
  {
  }

  lemma DeepListAndSetIffEveryElement(elem: TypeSpec, v: Value)
    ensures Matches(true, ListOf(Some(elem)), v) <==>
              v.ListVal? && forall i :: 0 <= i < |v.items| ==> Matches(true, elem, v.items[i])
    ensures Matches(true, SetOf(Some(elem)), v) <==>
              v.SetVal? && forall i :: 0 <= i < |v.items| ==> Matches(true, elem, v.items[i])
  {
  }

  lemma DeepDictIffEveryEntry(key: TypeSpec, val: TypeSpec, v: Value)
    ensures Matches(true, DictOf(Some((key, val))), v) <==>
              v.DictVal? && forall i :: 0 <= i < |v.entries| ==>
                Matches(true, key, v.entries[i].key) && Matches(true, val, v.entries[i].val)
    ensures Matches(true, DictOf(Some((key, val))), DictVal([]))
  {
  }

  /** The None type admits exactly None. */
  lemma NoneTypeAdmitsOnlyNone(deep: bool, v: Value)
    ensures Matches(deep, NoneType, v) <==> v == NoneVal
  {
  }

  /** None is admitted exactly by the specs `AdmitsNone` lists; every other
      spec, containers and plain classes alike, refuses it. */
  lemma {:induction false} NoneMatchesIffAdmitted(deep: bool, spec: TypeSpec)
    ensures Matches(deep, spec, NoneVal) <==> AdmitsNone(spec)
  {
    match spec
    case UnionOf(alts) =>
      forall i | 0 <= i < |alts|
        ensures Matches(deep, alts[i], NoneVal) <==> AdmitsNone(alts[i])
      {
        NoneMatchesIffAdmitted(deep, alts[i]);
      }
    case TypeVarOf(constraints) =>
      forall i | 0 <= i < |constraints|
        ensures Matches(deep, constraints[i], NoneVal) <==> AdmitsNone(constraints[i])
      {
        NoneMatchesIffAdmitted(deep, constraints[i]);
      }
    case _ =>
  }

  /** Deep checking only adds conditions: whatever passes deeply passes shallowly. */
  lemma {:induction false} DeepImpliesShallow(spec: TypeSpec, v: Value)
    ensures Matches(true, spec, v) ==> Matches(false, spec, v)
  {
    match spec
    case UnionOf(alts) =>
      if Matches(true, spec, v) {
        var i :| 0 <= i < |alts| && Matches(true, alts[i], v);
        DeepImpliesShallow(alts[i], v);
      }
    case TypeVarOf(constraints) =>
      if Matches(true, spec, v) {
        var i :| 0 <= i < |constraints| && Matches(true, constraints[i], v);
        DeepImpliesShallow(constraints[i], v);
      }
    case _ =>
  }

  /** The check function a TypeChecker builds for one spec: returns when the
      value matches, raises TypeError otherwise. */
  function Check(deep: bool, spec: TypeSpec, v: Value): (r: Outcome)
    ensures r.Pass? <==> Matches(deep, spec, v)
    ensures r.Fail? ==> r.error == TypeMismatch(Unnamed)
  {
    if Matches(deep, spec, v) then Pass else Fail(TypeMismatch(Unnamed))
  }

  /** The subscript of `TypeChecker[...]`: one spec, or a tuple, list or set
      of specs. */
  datatype Key = Single(spec: TypeSpec) | Several(specs: seq<TypeSpec>)

  /** The spec a subscript builds a checker for: a collection of specs becomes
      their union, and a union of no specs is refused with a TypeError. */
  function Subscript(key: Key): (r: Result<TypeSpec>)
    ensures r.Err? <==> key.Several? && |key.specs| == 0
    ensures r.Err? ==> r.error.TypeMismatch?
    ensures key.Single? ==> r == Ok(key.spec)
    ensures r.Ok? && key.Several? ==>
              forall deep: bool, v: Value :: Matches(deep, r.value, v) <==>
                exists i :: 0 <= i < |key.specs| && Matches(deep, key.specs[i], v)
  {
    match key
    case Single(spec) => Ok(spec)
    case Several(specs) => if |specs| == 0 then Err(TypeMismatch(Unnamed)) else Ok(UnionOf(specs))
  }

  /** A checker built from several keys raises exactly when no key admits the value. */
  lemma SubscriptCheckFailsIffNoKeyMatches(deep: bool, specs: seq<TypeSpec>, v: Value)
    requires |specs| > 0
    ensures Subscript(Several(specs)).Ok?
    ensures Check(deep, Subscript(Several(specs)).value, v).Fail? <==>
              forall i :: 0 <= i < |specs| ==> !Matches(deep, specs[i], v)
  {
  }

  /** `TypeChecker.scalar`: `Union[int, float]`. */
  const ScalarSpec: TypeSpec := UnionOf([Atomic(IntClass), Atomic(FloatClass)])

  /** `TypeChecker.numpy_array`. */
  const NdArraySpec: TypeSpec := Atomic(NdArrayClass)

  /** `TypeChecker.iterable`: `Union[np.ndarray, Iterable]`. */
  const IterableSpec: TypeSpec := UnionOf([Atomic(NdArrayClass), Atomic(IterableClass)])

  lemma ScalarMembers(deep: bool, v: Value)
    ensures Matches(deep, ScalarSpec, v) <==> IsNumber(v)
  {
    assert Matches(deep, ScalarSpec, v) <==>
      Matches(deep, Atomic(IntClass), v) || Matches(deep, Atomic(FloatClass), v);
  }

  lemma NdArrayMembers(deep: bool, v: Value)
    ensures Matches(deep, NdArraySpec, v) <==> v.ArrayVal?
  {
  }

  lemma IterableMembers(deep: bool, v: Value)
    ensures Matches(deep, IterableSpec, v) <==>
              v.StrVal? || v.ListVal? || v.SetVal? || v.DictVal? || v.TupleVal?
              || v.MapIterVal? || v.ListIterVal? || v.ArrayVal?
  {
    assert Matches(deep, IterableSpec, v) <==>
      Matches(deep, Atomic(NdArrayClass), v) || Matches(deep, Atomic(IterableClass), v);
  }

  /** `TypeChecker.scalar(v)` returns normally, as the bound checker uses it. */
  function IsScalar(v: Value): (b: bool)
    ensures b <==> IsNumber(v)
  {
    ScalarMembers(false, v);
    Matches(false, ScalarSpec, v)
  }

  /** `TypeChecker[bool](v)` returns normally. */
  function IsBool(v: Value): (b: bool)
    ensures b <==> v.BoolVal?
  {
    Matches(false, Atomic(BoolClass), v)
  }
}

=== FILE: scenarios.dfy ===
/** Concrete cases the library's own test script exercises, stated against the model. */
module Scenarios {
  import opened Values
  import opened CheckType
  import opened CheckBounds
  import opened Wrappers

  /** `Tuple[int, float, str]`. */
  const IntFloatStr: TypeSpec := TupleOf([Atomic(IntClass), Atomic(FloatClass), Atomic(StrClass)])

  /** With deep checking the positions are checked one by one; the arity is
      checked even without it. */
  lemma TupleCases()
    ensures Matches(true, IntFloatStr, TupleVal([IntVal(0), FloatVal(Fin(0.0)), StrVal("")]))
    ensures !Matches(true, IntFloatStr, TupleVal([IntVal(0), IntVal(0), StrVal("")]))
    ensures !Matches(true, IntFloatStr, TupleVal([IntVal(0), FloatVal(Fin(0.0)), NoneVal]))
    ensures !Matches(false, IntFloatStr, TupleVal([IntVal(1)]))
    ensures !Matches(false, IntFloatStr, TupleVal([IntVal(1), FloatVal(Fin(1.0)), StrVal(""), IntVal(0)]))
    ensures Matches(false, IntFloatStr, TupleVal([IntVal(0), IntVal(0), StrVal("")]))
  {
    DeepTupleIffEveryPosition(IntFloatStr.elems, TupleVal([IntVal(0), FloatVal(Fin(0.0)), StrVal("")]));
    DeepTupleIffEveryPosition(IntFloatStr.elems, TupleVal([IntVal(0), IntVal(0), StrVal("")]));
    assert !Matches(true, IntFloatStr.elems[1], TupleVal([IntVal(0), IntVal(0), StrVal("")]).items[1]);
    DeepTupleIffEveryPosition(IntFloatStr.elems, TupleVal([IntVal(0), FloatVal(Fin(0.0)), NoneVal]));
    assert !Matches(true, IntFloatStr.elems[2], TupleVal([IntVal(0), FloatVal(Fin(0.0)), NoneVal]).items[2]);
  }

  /** `Optional[Dict[str, int]]`. */
  const OptionalStrIntDict: TypeSpec := UnionOf([DictOf(Some((Atomic(StrClass), Atomic(IntClass)))), NoneType])

  lemma DictCases()
    ensures Matches(true, OptionalStrIntDict, DictVal([]))
    ensures Matches(true, OptionalStrIntDict, DictVal([Entry(StrVal("str"), IntVal(0))]))
    ensures Matches(true, OptionalStrIntDict, NoneVal)
    ensures !Matches(true, OptionalStrIntDict, DictVal([Entry(StrVal("hi"), StrVal("bob"))]))
    ensures !Matches(true, OptionalStrIntDict, DictVal([Entry(IntVal(0), IntVal(0))]))
    ensures !Matches(true, OptionalStrIntDict, DictVal([Entry(StrVal("hi"), IntVal(0)), Entry(NoneVal, IntVal(0))]))
    ensures !Matches(true, OptionalStrIntDict, ListVal([]))
  {
    var d := DictOf(Some((Atomic(StrClass), Atomic(IntClass))));
    assert Matches(true, d, DictVal([Entry(StrVal("str"), IntVal(0))]));
    assert !Matches(true, d, DictVal([Entry(StrVal("hi"), StrVal("bob"))]));
    assert !Matches(true, d, DictVal([Entry(IntVal(0), IntVal(0))]));
    var two := [Entry(StrVal("hi"), IntVal(0)), Entry(NoneVal, IntVal(0))];
    assert !Matches(true, Atomic(StrClass), two[1].key);
    assert !Matches(true, d, DictVal(two));
  }

  /** `[(-inf, -1), (0, 1), (2, inf)]` as a `check_bound_at_run` annotation. */
  const Disjoint: Value := ListVal([
    TupleVal([FloatVal(NegInf), IntVal(-1)]),
    TupleVal([IntVal(0), IntVal(1)]),
    TupleVal([IntVal(2), FloatVal(PosInf)])])

  /** For any number: inside one of the three intervals passes, anything else
      raises the bounds error naming the argument. */
  lemma DisjointAcceptsUnion(v: Value)
    requires IsNumber(v)
    ensures var x := Num(v);
            BoundAnnotationCheck(Disjoint, v, Arg("val_a")) ==
              if x.Le(Fin(-1.0)) || (Fin(0.0).Le(x) && x.Le(Fin(1.0))) || Fin(2.0).Le(x) then Pass
              else Fail(OutOfBounds(Arg("val_a")))
  {
    var ks := Disjoint.items;
    var i0, i1, i2 := Interval(NegInf, Fin(-1.0), true, true), Interval(Fin(0.0), Fin(1.0), true, true), Interval(Fin(2.0), PosInf, true, true);
    assert Parse(ks[0]) == Some(i0);
    assert Parse(ks[1]) == Some(i1);
    assert Parse(ks[2]) == Some(i2);
    var c0, c1, c2 := i0.Contains(Num(v)), i1.Contains(Num(v)), i2.Contains(Num(v));
    assert AnyInBounds(v, ks[2..]) == Decided(c2) by {
      assert ks[2..][1..] == [];
    }
    assert AnyInBounds(v, ks[1..]) == Decided(c1 || c2) by {
      assert ks[1..][1..] == ks[2..];
    }
    assert AnyInBounds(v, ks) == Decided(c0 || c1 || c2);
  }

  lemma DisjointAccepts()
    ensures BoundAnnotationCheck(Disjoint, IntVal(-1000), Arg("val_a")) == Pass
    ensures BoundAnnotationCheck(Disjoint, IntVal(-1), Arg("val_a")) == Pass
    ensures BoundAnnotationCheck(Disjoint, FloatVal(Fin(0.0)), Arg("val_a")) == Pass
    ensures BoundAnnotationCheck(Disjoint, FloatVal(Fin(1.0)), Arg("val_a")) == Pass
    ensures BoundAnnotationCheck(Disjoint, IntVal(20000), Arg("val_a")) == Pass
  {
    DisjointAcceptsUnion(IntVal(-1000));
    DisjointAcceptsUnion(IntVal(-1));
    DisjointAcceptsUnion(FloatVal(Fin(0.0)));
    DisjointAcceptsUnion(FloatVal(Fin(1.0)));
    DisjointAcceptsUnion(IntVal(20000));
  }

  lemma DisjointRefuses()
    ensures BoundAnnotationCheck(Disjoint, FloatVal(Fin(-0.5)), Arg("val_a")) == Fail(OutOfBounds(Arg("val_a")))
    ensures BoundAnnotationCheck(Disjoint, FloatVal(Fin(1.5)), Arg("val_a")) == Fail(OutOfBounds(Arg("val_a")))
  {
    DisjointAcceptsUnion(FloatVal(Fin(-0.5)));
    DisjointAcceptsUnion(FloatVal(Fin(1.5)));
  }

  /** A string is refused by the checker's own TypeError, not a bounds error. */
  lemma DisjointRefusesString()
    ensures BoundAnnotationCheck(Disjoint, StrVal(""), Arg("val_a")) == Fail(TypeMismatch(Unnamed))
  {
  }

  /** `[(0, 1), (2, 4)]` as a tuple of tuples. */
  const ZeroOneTwoFour: Value := TupleVal([TupleVal([IntVal(0), IntVal(1)]), TupleVal([IntVal(2), IntVal(4)])])

  /** `(0, 100, (True, False))`. */
  const HalfOpenHundred: Value := TupleVal([IntVal(0), IntVal(100), TupleVal([BoolVal(true), BoolVal(false)])])

  /** `BoundChecker[(0, 1), (2, 4)]` refuses 1.5 and accepts 2. */
  lemma TupleOfTuplesCases()
    ensures Validate(ZeroOneTwoFour, FloatVal(Fin(1.5))) == Fail(OutOfBounds(Unnamed))
    ensures Validate(ZeroOneTwoFour, IntVal(2)) == Pass
  {
    assert IsIntervalList(ZeroOneTwoFour);
    ValidateIsOrOverIntervals(ZeroOneTwoFour, FloatVal(Fin(1.5)));
    ValidateIsOrOverIntervals(ZeroOneTwoFour, IntVal(2));
    assert Parse(ZeroOneTwoFour.items[1]).value.Contains(Num(IntVal(2)));
  }

  /** `BoundChecker[(0, 100, (True, False))]` accepts 0 and refuses 100. */
  lemma HalfOpenCases()
    ensures Validate(HalfOpenHundred, IntVal(0)) == Pass
    ensures Validate(HalfOpenHundred, IntVal(100)) == Fail(OutOfBounds(Unnamed))
  {
    assert Parse(HalfOpenHundred) == Some(Interval(Fin(0.0), Fin(100.0), true, false));
    ValidateSingleInterval(HalfOpenHundred, Interval(Fin(0.0), Fin(100.0), true, false), IntVal(0));
    ValidateSingleInterval(HalfOpenHundred, Interval(Fin(0.0), Fin(100.0), true, false), IntVal(100));
  }

  /** `BoundChecker[(0, 1, 0)]` is a specification error. */
  lemma MalformedCase()
    ensures Validate(TupleVal([IntVal(0), IntVal(1), IntVal(0)]), FloatVal(Fin(0.5))) == Fail(BadSpec)
  {
  }

  /** `check_bound_at_run` reads only a list as a union: the same intervals as
      a tuple of tuples reach `_in_bounds` as one pair whose ends are not numbers. */
  lemma DecoratorTupleOfTuplesIsNotAUnion()
    ensures Validate(ZeroOneTwoFour, IntVal(2)) == Pass
    ensures BoundAnnotationCheck(ZeroOneTwoFour, IntVal(2), Arg("val_a")) == Fail(TypeMismatch(Unnamed))
  {
    TupleOfTuplesCases();
  }

  /** `[BoundChecker[(0, 1)], TypeChecker[int, float]]` under `enforce_annotations`. */
  lemma DualCases()
    ensures var a := Guards([BoundGuard(TupleVal([IntVal(0), IntVal(1)])), TypeGuard(ScalarSpec)]);
            && GuardAnnotationCheck(false, a, FloatVal(Fin(0.5)), Arg("val_a")) == Pass
            && GuardAnnotationCheck(false, a, FloatVal(Fin(1.001)), Arg("val_a")) == Fail(OutOfBounds(Unnamed))
            && GuardAnnotationCheck(false, a, StrVal(""), Arg("val_a")) == Fail(TypeMismatch(Unnamed))
  {
  }

  /** `def f(val_a: Union[int, float]): return val_a + 100` under
      `check_type_at_run`: 10 gives 110; the empty string is refused before the body runs. */
  method UnionDecoratorCalls() returns (good: Result<Value>, bad: Result<Value>, ghost badRuns: nat)
    ensures good == Ok(IntVal(110))
    ensures bad == Err(TypeMismatch(Arg("val_a")))
    ensures badRuns == 0
  {
    var ann := map[Param("val_a") := ScalarSpec];
    var body := (b: Binding) => if |b| == 1 && b[0].1.IntVal? then IntVal(b[0].1.i + 100) else NoneVal;
    ghost var goodRuns;
    good, goodRuns := CheckTypeAtRun(false, ann, [("val_a", IntVal(10))], body);
    ScalarMembers(false, StrVal(""));
    assert FirstFailure(TypeCheck(false), ann, [("val_a", StrVal(""))], 0);
    bad, badRuns := CheckTypeAtRun(false, ann, [("val_a", StrVal(""))], body);
  }

  /** `def f(val_a) -> (0, 1): return val_a` under `check_bound_at_run`: the
      body runs every time, and its result is checked on the way out. */
  method ReturnBoundCalls() returns (inside: Result<Value>, outside: Result<Value>, notNumber: Result<Value>)
    ensures inside == Ok(FloatVal(Fin(0.5)))
    ensures outside == Err(OutOfBounds(Ret))
    ensures notNumber == Err(TypeMismatch(Unnamed))
  {
    var ann := map[Return := TupleVal([IntVal(0), IntVal(1)])];
    var body := (b: Binding) => if |b| == 1 then b[0].1 else NoneVal;
    var key := ann[Return];
    ghost var runs;
    assert BoundAnnotationVerdict(key, FloatVal(Fin(0.5))) == CheckBounds.Decided(true);
    inside, runs := CheckBoundAtRun(ann, [("val_a", FloatVal(Fin(0.5)))], body);
    assert BoundAnnotationVerdict(key, IntVal(-10)) == CheckBounds.Decided(false);
    outside, runs := CheckBoundAtRun(ann, [("val_a", IntVal(-10))], body);
    assert BoundAnnotationCheck(key, StrVal(""), Ret) == Fail(TypeMismatch(Unnamed));
    notNumber, runs := CheckBoundAtRun(ann, [("val_a", StrVal(""))], body);
  }

  /** `def f(val_a: TypeChecker[str]): return val_a + ""` under
      `enforce_annotations`: a string passes; 0 raises the TypeChecker's
      TypeError before the body runs. */
  method EnforcedStrCalls() returns (good: Result<Value>, bad: Result<Value>, ghost badRuns: nat)
    ensures good == Ok(StrVal("hello"))
    ensures bad == Err(TypeMismatch(Unnamed))
    ensures badRuns == 0
  {
    var ann := map[Param("val_a") := OneGuard(TypeGuard(Atomic(StrClass)))];
    var body := (b: Binding) => if |b| == 1 && b[0].1.StrVal? then StrVal(b[0].1.s + "") else NoneVal;
    ghost var goodRuns;
    assert "hello" + "" == "hello";
    assert AllPass(GuardCheck(false), ann, [("val_a", StrVal("hello"))]);
    good, goodRuns := EnforceAnnotations(false, ann, [("val_a", StrVal("hello"))], body);
    assert FirstFailure(GuardCheck(false), ann, [("val_a", IntVal(0))], 0);
    bad, badRuns := EnforceAnnotations(false, ann, [("val_a", IntVal(0))], body);
  }
}

=== FILE: values.dfy ===
/** The runtime values the checkers inspect, the extended reals their numbers
    live in, and the error conditions the checkers raise. */
module Values {

  datatype Option<+T> = None | Some(value: T)

  /** A number as the bound checker compares it: a real, or one of the two
      float infinities (float('-inf') and float('inf')). NaN is not modelled. */
  datatype ExtReal = NegInf | Fin(r: real) | PosInf {

    /** Python's `<=` on two numbers. */
    predicate Le(other: ExtReal) {
      match (this, other)
      case (NegInf, _) => true
      case (_, PosInf) => true
      case (Fin(a), Fin(b)) => a <= b
      case _ => false
    }

    /** Python's `<` on two numbers. */
    predicate Lt(other: ExtReal) {
      Le(other) && this != other
    }
  }

  /** A Python value, reduced to the categories the checkers can tell apart.
      Sets are given by their members in iteration order and dicts by their
      items in iteration order. `MapIterVal` is an object returned by the
      builtin `map`, `ListIterVal` any other iterator, `FuncVal` any plain
      callable, and `ArrayVal` a numpy array, treated as an opaque category. */
  datatype Value =
    | NoneVal
    | BoolVal(b: bool)
    | IntVal(i: int)
    | FloatVal(x: ExtReal)
    | StrVal(s: string)
    | ListVal(items: seq<Value>)
    | SetVal(items: seq<Value>)
    | DictVal(entries: seq<Entry>)
    | TupleVal(items: seq<Value>)
    | FuncVal
    | MapIterVal
    | ListIterVal
    | ArrayVal

  datatype Entry = Entry(key: Value, val: Value)

  /** Python numbers: `bool` is a subclass of `int`, so True and False count. */
  predicate IsNumber(v: Value) {
    v.IntVal? || v.BoolVal? || v.FloatVal?
  }

  /** The numeric value Python compares; True is 1 and False is 0. */
  function Num(v: Value): ExtReal
    requires IsNumber(v)
  {
    match v
    case IntVal(i) => Fin(i as real)
    case BoolVal(b) => Fin(if b then 1.0 else 0.0)
    case FloatVal(x) => x
  }

  /** Where a failed check was raised: inside a checker, which does not know
      the argument name, or by a decorator for a named argument or the return. */
  datatype Site = Unnamed | Arg(name: string) | Ret

  /** TypeError from a type check; ValueError for a malformed bound tuple;
      ValueError for a number outside every interval. */
  datatype Error = TypeMismatch(site: Site) | BadSpec | OutOfBounds(site: Site)

  /** A check returns normally or raises. */
  datatype Outcome = Pass | Fail(error: Error)

  /** A call returns a value or raises. */
  datatype Result<+T> = Ok(value: T) | Err(error: Error)
}

=== FILE: wrappers.dfy ===
/** The call interceptor: the supplied arguments are checked against their
    annotations in binding order, then the wrapped body runs, then its result
    is checked against the return annotation, if any, and handed back
    unchanged. The three decorators differ only in the check they plug in. */
module Wrappers {
  import opened Values
  import CheckType
  import CheckBounds

  /** A key of the wrapped callable's annotations: a parameter or the return. */
  datatype Slot = Param(name: string) | Return

  /** The supplied arguments, by parameter name, in binding order. Parameters
      left to their defaults are absent. */
  type Binding = seq<(string, Value)>

  /** One argument gets past the pre-check: it is unannotated, or its
      annotation's check returns normally. */
  predicate ArgPasses<A>(check: (A, Value, Site) -> Outcome, ann: map<Slot, A>, arg: (string, Value)) {
    Param(arg.0) in ann ==> check(ann[Param(arg.0)], arg.1, Arg(arg.0)).Pass?
  }

  /** Every supplied argument gets past the pre-check. */
  predicate AllPass<A>(check: (A, Value, Site) -> Outcome, ann: map<Slot, A>, binding: Binding) {
    forall i :: 0 <= i < |binding| ==> ArgPasses(check, ann, binding[i])
  }

  /** Argument `i` is the first one whose check raises. */
  predicate FirstFailure<A>(check: (A, Value, Site) -> Outcome, ann: map<Slot, A>, binding: Binding, i: int) {
    && 0 <= i < |binding|
    && !ArgPasses(check, ann, binding[i])
    && forall j :: 0 <= j < i ==> ArgPasses(check, ann, binding[j])
  }

  /** The error the pre-check of a failing argument raises. */
  function PreError<A>(check: (A, Value, Site) -> Outcome, ann: map<Slot, A>, arg: (string, Value)): Error
    requires !ArgPasses(check, ann, arg)
  {
    check(ann[Param(arg.0)], arg.1, Arg(arg.0)).error
  }

  /** The wrapper every decorator builds. `bodyRuns` counts executions of the
      wrapped body: it runs once when every annotated argument passes and not
      at all otherwise. The first failing argument's error is raised; a failing
      return check raises after the body has run; on success the body's value
      is returned as is. */
  method Intercept<A>(check: (A, Value, Site) -> Outcome, ann: map<Slot, A>, binding: Binding, body: Binding -> Value)
    returns (r: Result<Value>, ghost bodyRuns: nat)
    ensures bodyRuns == (if forall i :: 0 <= i < |binding| ==> ArgPasses(check, ann, binding[i]) then 1 else 0)
    ensures forall i :: FirstFailure(check, ann, binding, i) ==> r == Err(PreError(check, ann, binding[i]))
    ensures (forall i :: 0 <= i < |binding| ==> ArgPasses(check, ann, binding[i])) ==>
              if Return in ann && check(ann[Return], body(binding), Ret).Fail?
              then r == Err(check(ann[Return], body(binding), Ret).error)
              else r == Ok(body(binding))
    ensures r.Ok? ==> forall i :: 0 <= i < |binding| ==> ArgPasses(check, ann, binding[i])
    ensures r.Ok? ==> r.value == body(binding)
  {
    bodyRuns := 0;
    var i := 0;
    while i < |binding|
      invariant 0 <= i <= |binding|
      invariant forall j :: 0 <= j < i ==> ArgPasses(check, ann, binding[j])
    {
      var (name, val) := binding[i];
      if Param(name) in ann {
        var pre := check(ann[Param(name)], val, Arg(name));
        if pre.Fail? {
          assert FirstFailure(check, ann, binding, i);
          r := Err(pre.error);
          return;
        }
      }
      i := i + 1;
    }
    var returned := body(binding);
    bodyRuns := bodyRuns + 1;
    if Return in ann {
      var post := check(ann[Return], returned, Ret);
      if post.Fail? {
        r := Err(post.error);
        return;
      }
    }
    r := Ok(returned);
  }

  // check_type_at_run

  /** The pre- and post-check of `check_type_at_run`; the error names the site. */
  function TypeAnnotationCheck(deep: bool, spec: CheckType.TypeSpec, v: Value, site: Site): (r: Outcome)
    ensures r.Pass? <==> CheckType.Matches(deep, spec, v)
    ensures r.Fail? ==> r.error == TypeMismatch(site)
  {
    if CheckType.Matches(deep, spec, v) then Pass else Fail(TypeMismatch(site))
  }

  /** The check `check_type_at_run` plugs into the interceptor. */
  function TypeCheck(deep: bool): (CheckType.TypeSpec, Value, Site) -> Outcome {
    (a: CheckType.TypeSpec, v: Value, s: Site) => TypeAnnotationCheck(deep, a, v, s)
  }

  /** A call through `check_type_at_run`: it succeeds exactly when every
      supplied annotated argument, and the result if the return is annotated,
      matches its spec; the first mismatching argument is named in the
      TypeError and stops the call before the body runs. */
  method CheckTypeAtRun(deep: bool, ann: map<Slot, CheckType.TypeSpec>, binding: Binding, body: Binding -> Value)
    returns (r: Result<Value>, ghost bodyRuns: nat)
    ensures forall arg: (string, Value) :: ArgPasses(TypeCheck(deep), ann, arg) <==>
              (Param(arg.0) in ann ==> CheckType.Matches(deep, ann[Param(arg.0)], arg.1))
    ensures r.Ok? <==>
              AllPass(TypeCheck(deep), ann, binding) && (Return in ann ==> CheckType.Matches(deep, ann[Return], body(binding)))
    ensures r.Ok? ==> r.value == body(binding)
    ensures forall i :: FirstFailure(TypeCheck(deep), ann, binding, i) ==>
              r == Err(TypeMismatch(Arg(binding[i].0))) && bodyRuns == 0
    ensures AllPass(TypeCheck(deep), ann, binding) ==>
              && bodyRuns == 1
              && (Return in ann && !CheckType.Matches(deep, ann[Return], body(binding)) ==> r == Err(TypeMismatch(Ret)))
  {
    r, bodyRuns := Intercept(TypeCheck(deep), ann, binding, body);
  }

  // check_bound_at_run

  /** A list annotation is a union of intervals; anything else is one bound tuple. */
  function BoundAnnotationVerdict(a: Value, v: Value): (r: CheckBounds.Verdict)
    ensures !a.ListVal? ==> r == CheckBounds.InBounds(v, a)
    ensures a.ListVal? ==>
              (r.Decided? <==> forall i :: 0 <= i < |a.items| ==> CheckBounds.InBounds(v, a.items[i]).Decided?)
    ensures a.ListVal? && r.Decided? ==>
              (r.inside <==> exists i :: 0 <= i < |a.items| && CheckBounds.InBounds(v, a.items[i]) == CheckBounds.Decided(true))
    ensures a.ListVal? && !r.Decided? ==>
              exists i :: 0 <= i < |a.items| && CheckBounds.InBounds(v, a.items[i]) == r
                          && forall j :: 0 <= j < i ==> CheckBounds.InBounds(v, a.items[j]).Decided?
  {
    if a.ListVal? then CheckBounds.AnyInBounds(v, a.items) else CheckBounds.InBounds(v, a)
  }

  /** The pre- and post-check of `check_bound_at_run`: a value outside every
      interval raises the bounds error naming the site. */
  function BoundAnnotationCheck(a: Value, v: Value, site: Site): (r: Outcome)
    ensures r.Pass? <==> BoundAnnotationVerdict(a, v) == CheckBounds.Decided(true)
    ensures r == Fail(OutOfBounds(site)) <==> BoundAnnotationVerdict(a, v) == CheckBounds.Decided(false)
    ensures r == Fail(TypeMismatch(Unnamed)) <==> BoundAnnotationVerdict(a, v) == CheckBounds.TypeErr
    ensures r == Fail(BadSpec) <==> BoundAnnotationVerdict(a, v) == CheckBounds.SpecErr
  {
    CheckBounds.ToOutcome(BoundAnnotationVerdict(a, v), site)
  }

  /** A list annotation whose members are all well-formed bound tuples passes
      a number exactly when one of their intervals contains it, and otherwise
      raises the bounds error naming the site. */
  lemma BoundAnnotationIsOrOverIntervals(a: Value, v: Value, site: Site)
    requires a.ListVal? && IsNumber(v)
    requires forall i :: 0 <= i < |a.items| ==> CheckBounds.Parse(a.items[i]).Some?
    ensures BoundAnnotationCheck(a, v, site) == Pass <==>
              exists i :: 0 <= i < |a.items| && CheckBounds.Parse(a.items[i]).value.Contains(Num(v))
    ensures BoundAnnotationCheck(a, v, site) != Pass ==> BoundAnnotationCheck(a, v, site) == Fail(OutOfBounds(site))
  {
    CheckBounds.ValidateIsOrOverIntervals(a, v);
    assert BoundAnnotationVerdict(a, v) == CheckBounds.Evaluate(a, v);
  }

  /** A value that is not a number raises the bound checker's type error at
      every site, unless the annotation is an empty list of intervals. */
  lemma BoundNonNumberIsTypeError(a: Value, v: Value, site: Site)
    requires !IsNumber(v)
    ensures BoundAnnotationCheck(a, v, site) ==
              if a.ListVal? && |a.items| == 0 then Fail(OutOfBounds(site))
              else Fail(TypeMismatch(Unnamed))
  {
    if a.ListVal? && |a.items| > 0 {
      assert CheckBounds.InBounds(v, a.items[0]) == CheckBounds.TypeErr;
    }
  }

  /** The check `check_bound_at_run` plugs into the interceptor. */
  const BoundCheck: (Value, Value, Site) -> Outcome := (a: Value, v: Value, s: Site) => BoundAnnotationCheck(a, v, s)

  /** A call through `check_bound_at_run`: it succeeds exactly when every
      supplied annotated argument, and the result if the return is annotated,
      lies in its bounds; a number outside them raises the bounds error naming
      the argument (or the return), and the checker's own type and
      specification errors pass through. */
  method CheckBoundAtRun(ann: map<Slot, Value>, binding: Binding, body: Binding -> Value)
    returns (r: Result<Value>, ghost bodyRuns: nat)
    ensures forall arg: (string, Value) :: ArgPasses(BoundCheck, ann, arg) <==>
              (Param(arg.0) in ann ==> BoundAnnotationVerdict(ann[Param(arg.0)], arg.1) == CheckBounds.Decided(true))
    ensures r.Ok? <==>
              && AllPass(BoundCheck, ann, binding)
              && (Return in ann ==> BoundAnnotationVerdict(ann[Return], body(binding)) == CheckBounds.Decided(true))
    ensures r.Ok? ==> r.value == body(binding)
    ensures forall i :: FirstFailure(BoundCheck, ann, binding, i) ==>
              && bodyRuns == 0
              && r == Err(BoundAnnotationCheck(ann[Param(binding[i].0)], binding[i].1, Arg(binding[i].0)).error)
              && (BoundAnnotationVerdict(ann[Param(binding[i].0)], binding[i].1) == CheckBounds.Decided(false) ==>
                    r == Err(OutOfBounds(Arg(binding[i].0))))
    ensures AllPass(BoundCheck, ann, binding) ==>
              && bodyRuns == 1
              && (Return in ann && r.Err? ==> r == Err(BoundAnnotationCheck(ann[Return], body(binding), Ret).error))
              && (Return in ann && BoundAnnotationVerdict(ann[Return], body(binding)) == CheckBounds.Decided(false) ==>
                    r == Err(OutOfBounds(Ret)))
  {
    r, bodyRuns := Intercept(BoundCheck, ann, binding, body);
  }

  // enforce_annotations

  /** A predicate object attached as an annotation: a TypeChecker or a
      BoundChecker check function. */
  datatype Guard = TypeGuard(spec: CheckType.TypeSpec) | BoundGuard(key: Value)

  /** An annotation of `enforce_annotations`: one predicate, or an iterable of them. */
  datatype GuardAnnotation = OneGuard(guard: Guard) | Guards(guards: seq<Guard>)

  /** Calling one predicate object on a value. */
  function RunGuard(deep: bool, g: Guard, v: Value): (r: Outcome)
    ensures g.TypeGuard? ==> (r.Pass? <==> CheckType.Matches(deep, g.spec, v))
    ensures g.TypeGuard? && r.Fail? ==> r.error == TypeMismatch(Unnamed)
    ensures g.BoundGuard? ==> (r.Pass? <==> CheckBounds.Evaluate(g.key, v) == CheckBounds.Decided(true))
    ensures g.BoundGuard? ==> r == CheckBounds.Validate(g.key, v)
  {
    match g
    case TypeGuard(spec) => CheckType.Check(deep, spec, v)
    case BoundGuard(key) => CheckBounds.Validate(key, v)
  }

  /** Every predicate of an iterable annotation, in order: the first that
      raises decides the error, so all must pass. */
  function RunGuards(deep: bool, guards: seq<Guard>, v: Value): (r: Outcome)
    ensures r.Pass? <==> forall i :: 0 <= i < |guards| ==> RunGuard(deep, guards[i], v).Pass?
    ensures r.Fail? ==>
              exists i :: 0 <= i < |guards| && r == RunGuard(deep, guards[i], v)
                          && forall j :: 0 <= j < i ==> RunGuard(deep, guards[j], v).Pass?
  {
    if |guards| == 0 then Pass
    else
      var first := RunGuard(deep, guards[0], v);
      if first.Fail? then first else RunGuards(deep, guards[1..], v)
  }

  /** The pre- and post-check of `enforce_annotations`. The predicates raise
      their own errors, so the site is not used. */
  function GuardAnnotationCheck(deep: bool, a: GuardAnnotation, v: Value, site: Site): (r: Outcome)
    ensures a.OneGuard? ==> r == RunGuard(deep, a.guard, v)
    ensures a.Guards? ==> (r.Pass? <==> forall i :: 0 <= i < |a.guards| ==> RunGuard(deep, a.guards[i], v).Pass?)
    ensures a.Guards? && r.Fail? ==>
              exists i :: 0 <= i < |a.guards| && r == RunGuard(deep, a.guards[i], v)
                          && forall j :: 0 <= j < i ==> RunGuard(deep, a.guards[j], v).Pass?
  {
    match a
    case OneGuard(g) => RunGuard(deep, g, v)
    case Guards(gs) => RunGuards(deep, gs, v)
  }

  /** The check `enforce_annotations` plugs into the interceptor. */
  function GuardCheck(deep: bool): (GuardAnnotation, Value, Site) -> Outcome {
    (a: GuardAnnotation, v: Value, s: Site) => GuardAnnotationCheck(deep, a, v, s)
  }

  /** A call through `enforce_annotations`: it succeeds exactly when every
      predicate attached to every supplied argument, and to the return if
      annotated, passes; the first failing predicate's error stops the call. */
  method EnforceAnnotations(deep: bool, ann: map<Slot, GuardAnnotation>, binding: Binding, body: Binding -> Value)
    returns (r: Result<Value>, ghost bodyRuns: nat)
    ensures forall arg: (string, Value) :: ArgPasses(GuardCheck(deep), ann, arg) <==>
              (Param(arg.0) in ann ==> GuardAnnotationCheck(deep, ann[Param(arg.0)], arg.1, Arg(arg.0)).Pass?)
    ensures r.Ok? <==>
              && AllPass(GuardCheck(deep), ann, binding)
              && (Return in ann ==> GuardAnnotationCheck(deep, ann[Return], body(binding), Ret).Pass?)
    ensures r.Ok? ==> r.value == body(binding)
    ensures forall i :: FirstFailure(GuardCheck(deep), ann, binding, i) ==>
              && bodyRuns == 0
              && r == Err(GuardAnnotationCheck(deep, ann[Param(binding[i].0)], binding[i].1, Arg(binding[i].0)).error)
    ensures AllPass(GuardCheck(deep), ann, binding) ==>
              && bodyRuns == 1
              && (Return in ann && r.Err? ==> r == Err(GuardAnnotationCheck(deep, ann[Return], body(binding), Ret).error))
  {
    r, bodyRuns := Intercept(GuardCheck(deep), ann, binding, body);
  }
}
